=== FILE: README.md ===
# Admin query builder, landing-page handlers and comment dialog — a Dafny model

This project models the logic core of a small photo-gallery web application:

- **The admin query route** (`backend/routes/query.js`). `POST /execute` takes a
  JSON body `{table, select, filters, orderBy, limit}`. It refuses a request
  without a table. Otherwise it builds a lazy chain of query-builder calls:
  - one `select`;
  - one filter call per filter whose operator is one of ten names;
  - an optional `order`;
  - an optional `limit`.

  It sends the chain to the store once and shapes the answer into
  `{success, data, count}` or an error response. `GET /schema/:table` reads one
  row and reports one column per property of that row, with its `typeof`.
- **The query-builder page** (`frontend/src/pages/QueryBuilder.jsx`). These are
  the state updates for adding, removing and editing filter rows, ticking
  columns and loading a schema, plus the request object `executeQuery` posts.
  The model follows that request through JSON into the route, and proves what
  the route then issues.
- **The landing page's handlers** (`frontend/src/landing/LandingPage.jsx`). One
  is the Konami-code listener, which keeps a ten-key sliding window. The other
  is the scroll listener, which shows the navigation bar past 300 pixels.
- **The comment dialog's submit** (`frontend/src/components/CommentModal.jsx`).

How JavaScript is modelled (module `JsValues`):

- A decoded JSON body is a `Value`: `undefined`, `null`, booleans, integer
  numbers, strings, arrays, and objects as property lists in enumeration order.
- Truthiness, `typeof`, `String(v)`, `Array.prototype.join` and
  `String.prototype.trim` are written out.
- The whitespace set of `trim` is the ECMAScript WhiteSpace and LineTerminator
  set.
- Builder calls are lazy. A TypeError while the chain is being built therefore
  means nothing is sent. Examples are destructuring a `null` filter, or calling
  `join` on a string `select`. The route's `catch` then answers
  500 "Internal server error".

How the store and the page are modelled:

- The store is a parameter `store: Query -> Outcome`. `Query` is the table plus
  the trace of builder calls.
- React state updates are pure functions from the old state to the new one.
- The page and the dialog are replayed over arbitrary action sequences to state
  invariants.

## Model

| member | source | states |
|---|---|---|
| QueryRoute.Execute | backend/routes/query.js:8-91 | A falsy table gives 400 "Table name required" and nothing is sent. The store is consulted exactly when translation builds a chain, and what it receives is exactly that chain on the body's table. A query that is sent carries the body's table and a chain in fixed order: one select first, then filters, then at most one order, then at most one limit. The reply is a success exactly when a query was sent and the store returned rows. The success count is the number of rows returned. A store error becomes 500 "Query execution failed" with the store's message as details. A truthy table that is not sent gets 500 "Internal server error". |
| QueryRoute.Translate | backend/routes/query.js:10-77 | The route answers without consulting the store exactly in these cases: the table is falsy; `select` is a non-empty string (no `join`); `select` is an array holding an element that `String()` cannot convert; or the filter array holds an entry that throws (a `null`/`undefined` entry, or a `like`/`ilike` filter whose value `String()` cannot convert). Every early answer other than the missing table is the 500 internal error. A built chain keeps the route's stage order, and its first call is the select stage's call. |
| QueryRoute.Shape | backend/routes/query.js:79-86 | Rows give status 200, `success` with the same data, and a count equal to the number of rows. An error gives 500 with the store's message as `details`. |
| QueryRoute.ParseOp | backend/routes/query.js:31-64 | The operator is matched by strict equality against the ten operator strings. A recognised operator is exactly that string. Every one of the ten strings is recognised as its own primitive. |
| QueryRoute.SelectStage | backend/routes/query.js:20-24 | The select stage fails exactly for a non-empty string, or for a non-empty array that `join` cannot convert (an element that is an object with its own `toString` key). Otherwise it produces one `select` call. |
| QueryRoute.SelectProjection | backend/routes/query.js:20-24 | A non-empty list of names selects those names joined by `", "`, in order. The empty string, an empty array, and anything that is neither an array nor a string select `*`. |
| JsValues.JoinValues | backend/routes/query.js:21 | `join` on an array of strings is the separator-join of those strings. |
| QueryRoute.UnconvertibleValueIsRefused | backend/routes/query.js:19-55 | For any table and column, a `select` array holding `{"toString": 0}`, or a `like` filter whose value is that object, makes the route answer the 500 internal error without consulting the store. |
| QueryRoute.FilterStep | backend/routes/query.js:28-64 | A filter throws exactly when it is `null` or `undefined`, or when its operator is `like`/`ilike` and its value cannot be converted by `String()`. Otherwise it issues one call when its operator is one of the ten, and none when it is not. |
| QueryRoute.FilterCalls | backend/routes/query.js:27-66 | The `forEach` over the filter array fails exactly when some entry throws: it is nullish, or it is a `like`/`ilike` filter whose value cannot be converted. |
| QueryRoute.FilterCallsAreFilters | backend/routes/query.js:28-65 | The filter loop issues only filter calls. |
| QueryRoute.FilterStage | backend/routes/query.js:27 | A `filters` value that is not an array is ignored and issues no call. |
| QueryRoute.FilterCallsConcat | backend/routes/query.js:28-65 | Each filter is handled independently: the calls for `a + b` are the calls for `a` followed by the calls for `b`. |
| QueryRoute.UnknownOperatorSkipped | backend/routes/query.js:62-64 | A filter with an unrecognised operator issues nothing, and later filters still apply. The result equals the result for the list without it. |
| QueryRoute.OneCallPerFilter | backend/routes/query.js:28-65 | When every filter is an object with a recognised operator, there is exactly one call per filter, in list order. Each call is on the primitive the operator names, with the filter's column and its value (passed through or wrapped). |
| QueryRoute.SentFiltersAreFilterStage | backend/routes/query.js:17-77 | The filter calls that reach the store are exactly the filter stage's calls, in order. Select, order and limit contribute none. |
| QueryRoute.PatternWrapping | backend/routes/query.js:50-55 | When the value converts, `like` and `ilike` receive `%`, then `String(value)`, then `%`. For a string value that is `"%" + value + "%"`. The other eight primitives receive the value unchanged. |
| QueryRoute.OrderOnlyWhenTruthy | backend/routes/query.js:69-72 | An `order` call appears exactly when `orderBy` is truthy. It is on `orderBy.column`, with `ascending` defaulting to `true` only when `ascending` is `undefined`. |
| QueryRoute.LimitOnlyWhenTruthy | backend/routes/query.js:75-77 | A `limit` call carrying the body's value appears exactly when `limit` is truthy. Every limit call carries that value. |
| QueryRoute.InferColumns | backend/routes/query.js:134-137 | `Object.keys` throws exactly on a nullish row. An object row gives one column per property. Numbers and booleans have no keys. |
| QueryRoute.ColumnsFollowKeys | backend/routes/query.js:134-137 | For an object row, the column names are its keys in enumeration order, and each column's type is the `typeof` of that key's value. |
| QueryRoute.Schema | backend/routes/query.js:115-144 | The route sends `select('*').limit(1)` on the table. A store error gives 500 "Failed to fetch schema". No rows gives 200 with no columns. A nullish first row gives the 500 internal error. Any other first row gives 200 whose columns are exactly the columns inferred from that row (its keys, each with the `typeof` of its value). An object first row gives one column per property. |
| QueryBuilderPage.OfferedOperatorsAreDispatched | frontend/src/pages/QueryBuilder.jsx:12-23 | Every operator in the page's menu is one the route dispatches, and every primitive the route dispatches is in the menu. |
| QueryBuilderPage.AddFilter | frontend/src/pages/QueryBuilder.jsx:67-69 | One row `{column: '', operator: 'eq', value: ''}` is appended, and the existing rows are unchanged. |
| QueryBuilderPage.RemoveFilter | frontend/src/pages/QueryBuilder.jsx:71-73 | Removing at a valid index drops exactly that row and keeps the others in order. Any other index removes nothing. |
| QueryBuilderPage.RemoveUndoesAdd | frontend/src/pages/QueryBuilder.jsx:67-73 | Removing the row just added restores the list. |
| QueryBuilderPage.UpdateFilter | frontend/src/pages/QueryBuilder.jsx:75-79 | The length is unchanged, other rows are unchanged, and the edited row's chosen field takes the value while its other fields are kept. An index outside the list changes nothing, because the assignment throws before the state is set. |
| QueryBuilderPage.UpdateWithSameValueIsIdentity | frontend/src/pages/QueryBuilder.jsx:75-79 | Writing a field's current value back is the identity. |
| QueryBuilderPage.ToggleColumn | frontend/src/pages/QueryBuilder.jsx:153-159 | Ticking appends the name. Unticking removes every occurrence of it and keeps every other name's multiplicity. The order of the remaining names is kept, as `RemoveAllConcat` states. |
| QueryBuilderPage.RemoveAllConcat | frontend/src/pages/QueryBuilder.jsx:157 | Unticking works name by name: for `a + b` the result is the result for `a` followed by the result for `b`. So the names that stay keep their order, which is the order of the `select` string. |
| QueryBuilderPage.UntickUndoesTick | frontend/src/pages/QueryBuilder.jsx:153-159 | Unticking a column just ticked restores a selection that did not contain it. |
| QueryBuilderPage.LoadSchema | frontend/src/pages/QueryBuilder.jsx:56-65 | A schema answer replaces the columns and clears the ticked columns and the filters. A failed request changes nothing. The table, ordering and limit are untouched. |
| QueryBuilderPage.SendableFilters | frontend/src/pages/QueryBuilder.jsx:92 | Only rows with a non-empty column and a non-empty value are sent, each as often as it occurs, and all such rows are kept. |
| QueryBuilderPage.SendableFiltersConcat | frontend/src/pages/QueryBuilder.jsx:92 | Rows are kept or dropped independently, so the kept rows keep their order. |
| QueryBuilderPage.BuildRequest | frontend/src/pages/QueryBuilder.jsx:81-95 | There is no request exactly when no table is selected. Otherwise: `select` is present exactly when columns are ticked, and then equals them; `orderBy` is present exactly when it names a column; the limit is passed as is; the filters sent are exactly the sendable rows, in order. |
| QueryBuilderPage.ToBody | frontend/src/pages/QueryBuilder.jsx:89-95 | After JSON, absent `select` and `orderBy` read as `undefined`, a present `select` arrives as the array of the ticked names as strings, in order, and the filters arrive as one object per row, in order. |
| QueryBuilderPage.PageRequestIsBuilt | frontend/src/pages/QueryBuilder.jsx:81-95 | A request the page builds is never refused by the route. It selects the ticked columns joined by `", "`, or `*` when none is ticked. |
| QueryBuilderPage.PageRequestFilters | frontend/src/pages/QueryBuilder.jsx:81-95 | The route issues one filter call per sendable row, in row order. Each is on the primitive the row names, with the row's column and its value (wrapped in `%` for `like`/`ilike`). |
| QueryBuilderPage.RowsToCalls | frontend/src/pages/QueryBuilder.jsx:92 | Filter rows whose operators come from the menu, once serialised, produce one filter call per row, in order. Each call is on the primitive the row names, with the row's column and its value (wrapped in `%` for `like`/`ilike`). |
| QueryBuilderPage.PageRequestOrder | frontend/src/pages/QueryBuilder.jsx:93 | The route issues an `order` call exactly when the page's ordering column is non-empty. |
| QueryBuilderPage.PageRequestLimit | frontend/src/pages/QueryBuilder.jsx:94 | The route limits the rows exactly when the page's limit is a non-zero number. `NaN` from an empty field (sent as `null`) and 0 mean no limit. |
| QueryBuilderPage.Apply | frontend/src/pages/QueryBuilder.jsx:32-79 | No user action changes the ordering. |
| QueryBuilderPage.OrderingNeverSent | frontend/src/pages/QueryBuilder.jsx:32-33 | From the initial state, after any actions, the ordering column is still empty and no request carries `orderBy`. |
| QueryBuilderPage.OperatorsStayOffered | frontend/src/pages/QueryBuilder.jsx:67-79 | Driven through its controls, the page only ever holds rows whose operator is in the menu. |
| LandingPage.PushKey | frontend/src/landing/LandingPage.jsx:91-92 | The window holds min(old length + 1, 10) keys and ends with the new key. It is a suffix of the old window plus the key, and while it is short nothing is dropped. |
| LandingPage.HandleKeyDown | frontend/src/landing/LandingPage.jsx:90-101 | Confetti fires exactly when the new window equals the code. |
| LandingPage.WindowIsLastTen | frontend/src/landing/LandingPage.jsx:87-92 | After any key history the window is the last ten keys, or all of them when fewer were pressed. |
| LandingPage.FiresIffHistoryEndsWithKonami | frontend/src/landing/LandingPage.jsx:86-101 | Confetti fires on a key exactly when the whole history, that key included, ends with the ten-key code. |
| LandingPage.NeverFiresBeforeTenKeys | frontend/src/landing/LandingPage.jsx:86-101 | With fewer than ten keys pressed, confetti does not fire. |
| LandingPage.FiresAfterKonami | frontend/src/landing/LandingPage.jsx:86-101 | Typing the code fires confetti on its last key, whatever was typed before. |
| LandingPage.OnScroll | frontend/src/landing/LandingPage.jsx:80-83 | After a scroll event the bar is visible exactly when the position is past 300. The setter is called once when the visibility changes and never otherwise. |
| LandingPage.ScrollIsIdempotent | frontend/src/landing/LandingPage.jsx:80-83 | A second event on the same side of 300 changes nothing and calls no setter. |
| JsValues.TrimEmptyIffAllWhitespace | frontend/src/components/CommentModal.jsx:29 | `trim()` is empty exactly when every character is whitespace. |
| CommentModal.Submit | frontend/src/components/CommentModal.jsx:28-45 | A submit is rejected exactly when the input is all whitespace, and then nothing changes. Otherwise the new comment goes at the head and the old list is untouched behind it. The new comment has id = old length + 1, author "You", timestamp "Just now", the untrimmed text and no likes, and the input is cleared. |
| CommentModal.SubmitKeepsIdsDense | frontend/src/components/CommentModal.jsx:34-42 | If the ids are distinct and within 1..length, a submit keeps them so, and the new id is carried by no earlier comment. |
| CommentModal.ApplyKeepsIds | frontend/src/components/CommentModal.jsx:28-45 | Typing or submitting keeps the id invariant, and the old list stays the tail of the new one. |
| CommentModal.IdsStayDense | frontend/src/components/CommentModal.jsx:28-45 | Across any sequence of typing and submitting, ids stay distinct and within 1..length, and every earlier list is the tail of the later one. |
| CommentModal.OpeningIdsStayDense | frontend/src/components/CommentModal.jsx:11-45 | From the dialog's two seeded comments, the ids stay distinct whatever the user does, and the seeded comments stay at the tail. |

## Left out

- The store's query semantics (how `eq`, `like`, `order`, `limit` select rows) are not modelled. The store is an uninterpreted function from the call trace to rows or an error.
- The query builder's own argument handling (`eq`, `in`, `order`, `limit` and the rest) is assumed never to throw. Only the conversions the route itself performs (`join`, the `%…%` template) are modelled. So the early answers listed for `Translate` are exact only under that assumption.
- Authentication middleware, the `/tables` route, the content, upload and auth routes and the front end's API client are not part of this model.
- Logging (`console.error`), toasts, the loading flag, `sessionStorage`, timers, animations and rendering are left out. They do not affect the state the handlers compute.
- JsValues.IntToDecimal: JavaScript numbers are doubles, but the model's numbers are unbounded integers printed with every digit. `String(n)` switches to exponent form from 1e21 on, and `JSON.parse` rounds integers beyond 2^53; neither is modelled, so a large filter value wrapped for `like` differs from the model's text.
- JavaScript numbers are modelled as integers. Fractional numbers and `NaN` inside a request body are left out. The page's `NaN` limit is modelled, as the `null` JSON writes for it.
- A `select` that is an object with its own `length` property is treated like any object without a length, so the model selects `*`. That is right when the `length` does not compare greater than 0 (`0`, `null`, `"x"`). When it does compare greater than 0, such an object reaches `join` and throws, so the route answers 500 and sends nothing.
- `Object.keys` ordering rules for integer-like keys, and duplicate keys in a JSON text, are left out. An object is its property list in enumeration order.
- QueryRoute.Schema: the case where the store answers without an error but with `data` equal to `null` is not modelled. The store answer is either rows or an error.
- QueryRoute.InferColumns: for array and string rows, the index keys are modelled, but no theorem about them is stated. A string row has one key per Unicode scalar value in the model. `Object.keys` gives one key per UTF-16 code unit, so a character outside the Basic Multilingual Plane (such as an emoji) gives two keys there and one in the model.
- The scroll listener's `showNavbar` is the value the handler saw. Stale closures across renders are not modelled.
- The page's ordering has no control that sets it, so `OrderingNeverSent` states that it is never sent. Sorting is therefore unreachable from the page, though the route supports it.
- The page's table list (`loadTables`) and results display are left out. Only the request the page sends is modelled.
- QueryBuilderPage.LoadSchema: a schema answer without a `columns` field (read as `[]` by `result.columns || []`) is modelled as an answer with no columns. Loading is a separate action, not the effect that follows choosing a table.

=== FILE: comment_modal.dfy ===
/**
 The comment list of a team member's comment dialog: a text input and a list
 of comments, newest first. Submitting rejects blank input, otherwise puts a
 new comment at the head of the list and clears the input. The toasts and the
 animation are left out.
 */
module CommentModal {
  import opened JsValues

  datatype Comment = Comment(id: int, author: string, text: string, timestamp: string, likes: nat)

  datatype ModalState = ModalState(input: string, comments: seq<Comment>)

  /** The two comments every dialog opens with, ids 1 and 2. */
  const Seeded: seq<Comment> := [
    Comment(1, "John Doe", "Great work on the recent project! Your dedication is inspiring.", "2 hours ago", 5),
    Comment(2, "Jane Smith", "Always impressed by your attention to detail.", "5 hours ago", 3)
  ]

  const Initial := ModalState("", Seeded)

  /** The state after a submit, and whether the comment was accepted. */
  datatype Submitted = Submitted(state: ModalState, accepted: bool)

  /** The comment a submit adds: the next id, the author `You`, the input as
      typed (untrimmed), no likes. */
  function NewComment(comments: seq<Comment>, text: string): Comment {
    Comment(|comments| + 1, "You", text, "Just now", 0)
  }

  /** `handleSubmit`. */
  function Submit(s: ModalState): (r: Submitted)
    ensures !r.accepted <==> AllWhitespace(s.input)
    ensures !r.accepted ==> r.state == s
    ensures r.accepted ==>
              && r.state.input == ""
              && |r.state.comments| == |s.comments| + 1
              && r.state.comments[1..] == s.comments
              && r.state.comments[0].id == |s.comments| + 1
              && r.state.comments[0].author == "You"
              && r.state.comments[0].text == s.input
              && r.state.comments[0].timestamp == "Just now"
              && r.state.comments[0].likes == 0
  {
    TrimEmptyIffAllWhitespace(s.input);
    if Trim(s.input) == "" then Submitted(s, false)
    else Submitted(ModalState("", [NewComment(s.comments, s.input)] + s.comments), true)
  }

  /** The ids are pairwise distinct and each lies between 1 and the length
      of the list; by counting, they are then exactly 1 to the length. */
  predicate DenseIds(comments: seq<Comment>) {
    && (forall i, j :: 0 <= i < j < |comments| ==> comments[i].id != comments[j].id)
    && (forall i :: 0 <= i < |comments| ==> 1 <= comments[i].id <= |comments|)
  }

  /** Putting a comment with id length + 1 at the head keeps the ids
      distinct and dense, and the new id is carried by no earlier comment. */
  lemma PrependKeepsIdsDense(c: Comment, comments: seq<Comment>)
    requires DenseIds(comments) && c.id == |comments| + 1
    ensures DenseIds([c] + comments)
    ensures forall i :: 0 <= i < |comments| ==> comments[i].id != c.id
  {
  }

  /** Each accepted submit keeps the ids distinct and dense; in particular
      the new comment's id is one no earlier comment carries. */
  lemma SubmitKeepsIdsDense(s: ModalState)
    requires DenseIds(s.comments)
    ensures DenseIds(Submit(s).state.comments)
    ensures Submit(s).accepted ==>
              forall i :: 0 <= i < |s.comments| ==> s.comments[i].id != Submit(s).state.comments[0].id
  {
    if Submit(s).accepted {
      var c := NewComment(s.comments, s.input);
      assert Submit(s).state.comments == [c] + s.comments;
      PrependKeepsIdsDense(c, s.comments);
    }
  }

  /** What the user can do in the dialog. */
  datatype Action = Type(text: string) | Send

  function Apply(s: ModalState, a: Action): ModalState {
    match a
    case Type(text) => s.(input := text)
    case Send => Submit(s).state
  }

  function Run(s: ModalState, actions: seq<Action>): ModalState
    decreases |actions|
  {
    if |actions| == 0 then s else Run(Apply(s, actions[0]), actions[1..])
  }

  /** `short` is the tail end of `long`. */
  predicate EndsWith(long: seq<Comment>, short: seq<Comment>) {
    |short| <= |long| && long[|long| - |short|..] == short
  }

  lemma EndsWithTransitive(a: seq<Comment>, b: seq<Comment>, c: seq<Comment>)
    requires EndsWith(a, b) && EndsWith(b, c)
    ensures EndsWith(a, c)
  {
  }

  /** One action keeps the id invariant and never drops or reorders a
      comment: the old list is the tail of the new one. */
  lemma ApplyKeepsIds(s: ModalState, a: Action)
    requires DenseIds(s.comments)
    ensures DenseIds(Apply(s, a).comments)
    ensures EndsWith(Apply(s, a).comments, s.comments)
  {
    if a.Send? {
      SubmitKeepsIdsDense(s);
      var r := Apply(s, a).comments;
      assert r == s.comments || r[1..] == s.comments;
    } else {
      assert Apply(s, a).comments[0..] == s.comments;
    }
  }

  /** Whatever the user types and submits, the ids stay pairwise distinct and
      within 1 to the length, and the list only grows at the head: every
      earlier list is the tail of every later one. */
  lemma {:induction false} IdsStayDense(s: ModalState, actions: seq<Action>)
    requires DenseIds(s.comments)
    ensures DenseIds(Run(s, actions).comments)
    ensures EndsWith(Run(s, actions).comments, s.comments)
    decreases |actions|
  {
    if |actions| > 0 {
      var next := Apply(s, actions[0]);
      ApplyKeepsIds(s, actions[0]);
      IdsStayDense(next, actions[1..]);
      EndsWithTransitive(Run(next, actions[1..]).comments, next.comments, s.comments);
    } else {
      assert s.comments[0..] == s.comments;
    }
  }

  /** From the dialog's opening state, the seeded comments stay at the tail
      and the ids stay distinct, whatever happens. */
  lemma OpeningIdsStayDense(actions: seq<Action>)
    ensures DenseIds(Run(Initial, actions).comments)
    ensures EndsWith(Run(Initial, actions).comments, Seeded)
  {
    IdsStayDense(Initial, actions);
  }
}

=== FILE: js_values.dfy ===
/**
 This module models the small part of JavaScript value semantics the admin
 query endpoint and the front-end handlers rely on: the values a decoded JSON
 request body can hold, truthiness, `typeof`, conversion to a string (`String(v)`,
 template literals, `Array.prototype.join`) and `String.prototype.trim`.
 */
module JsValues {

  datatype Option<+T> = None | Some(value: T)

  /** A JavaScript value as it arrives in a decoded request body or a store row.
      Numbers are integers; an object is its property list in enumeration order
      (a JavaScript object never lists a key twice). */
  datatype Value =
    | Undefined
    | Null
    | Bool(b: bool)
    | Num(n: int)
    | Str(s: string)
    | Arr(items: seq<Value>)
    | Obj(props: seq<(string, Value)>)

  /** `null` and `undefined`: the values whose destructuring throws a TypeError. */
  predicate Nullish(v: Value) {
    v.Undefined? || v.Null?
  }

  /** JavaScript's ToBoolean: the test behind `if (v)` and `!v`. */
  predicate Truthy(v: Value) {
    match v
    case Undefined => false
    case Null => false
    case Bool(b) => b
    case Num(n) => n != 0
    case Str(s) => s != ""
    case Arr(_) => true
    case Obj(_) => true
  }

  /** The value of the first property named `key`, or `undefined`. */
  function Lookup(props: seq<(string, Value)>, key: string): (r: Value)
  {
    if |props| == 0 then Undefined
    else if props[0].0 == key then props[0].1
    else Lookup(props[1..], key)
  }

  /** Reading a named property, as `const { key } = v` does for a value that is
      not nullish. Only the names `column`, `operator`, `value` and `ascending`
      are ever read; arrays, strings, numbers and booleans have no own or
      inherited property of those names. */
  function Prop(v: Value, key: string): (r: Value)
    ensures !v.Obj? ==> r == Undefined
  {
    if v.Obj? then Lookup(v.props, key) else Undefined
  }

  /** The `typeof` operator. */
  function TypeOf(v: Value): (r: string)
    ensures r == "object" <==> v.Null? || v.Arr? || v.Obj?
    ensures r == "undefined" <==> v.Undefined?
    ensures r == "string" <==> v.Str?
  {
    match v
    case Undefined => "undefined"
    case Null => "object"
    case Bool(_) => "boolean"
    case Num(_) => "number"
    case Str(_) => "string"
    case Arr(_) => "object"
    case Obj(_) => "object"
  }

  function DigitChar(d: nat): (c: char)
    requires d < 10
    ensures '0' <= c <= '9'
  {
    "0123456789"[d]
  }

  /** Decimal notation of a natural number, as `String(n)` prints it. */
  function NatToDecimal(n: nat): (r: string)
    ensures |r| >= 1
    ensures forall i :: 0 <= i < |r| ==> '0' <= r[i] <= '9'
    ensures r[0] == '0' ==> n == 0
  {
    if n < 10 then [DigitChar(n)] else NatToDecimal(n / 10) + [DigitChar(n % 10)]
  }

  function IntToDecimal(n: int): (r: string)
    ensures |r| >= 1
    ensures n < 0 <==> r[0] == '-'
  {
    if n < 0 then "-" + NatToDecimal(-n) else NatToDecimal(n)
  }

  /** `parts.join(sep)` on a list that is already strings. */
  function Join(parts: seq<string>, sep: string): (r: string)
    ensures |parts| == 0 ==> r == ""
    ensures |parts| == 1 ==> r == parts[0]
  {
    if |parts| == 0 then ""
    else if |parts| == 1 then parts[0]
    else parts[0] + sep + Join(parts[1..], sep)
  }

  /** An object's property list names `key`. */
  predicate HasKey(props: seq<(string, Value)>, key: string) {
    |props| > 0 && (props[0].0 == key || HasKey(props[1..], key))
  }

  /** `String(v)` does not throw. An object decoded from JSON that carries its
      own `toString` property cannot be converted: that property is never a
      function, and `Object.prototype.valueOf` gives back the object itself,
      which is not a primitive, so the conversion raises a TypeError. An array
      converts through `join`, which converts every element that is not
      `null` or `undefined`. */
  predicate Convertible(v: Value) {
    match v
    case Obj(props) => !HasKey(props, "toString")
    case Arr(items) => forall i :: 0 <= i < |items| ==> Nullish(items[i]) || Convertible(items[i])
    case _ => true
  }

  /** `String(v)`, which is also what a template literal `${v}` inserts; it is
      the conversion's result when `Convertible(v)`. */
  function JsString(v: Value): (r: string)
    decreases v, 0
  {
    match v
    case Undefined => "undefined"
    case Null => "null"
    case Bool(b) => if b then "true" else "false"
    case Num(n) => IntToDecimal(n)
    case Str(s) => s
    case Arr(items) => Join(seq(|items|, i requires 0 <= i < |items| => ElementString(items[i])), ",")
    case Obj(_) => "[object Object]"
  }

  /** How `Array.prototype.join` renders one element: `null` and `undefined`
      become the empty string, anything else goes through `String`. */
  function ElementString(e: Value): (r: string)
    ensures Nullish(e) ==> r == ""
    ensures e.Str? ==> r == e.s
    decreases e, 1
  {
    if Nullish(e) then "" else JsString(e)
  }

  /** `items.join(sep)` on an arbitrary array. */
  function JoinValues(items: seq<Value>, sep: string): (r: string)
    ensures (forall i :: 0 <= i < |items| ==> items[i].Str?) ==>
              r == Join(seq(|items|, i requires 0 <= i < |items| => items[i].s), sep)
  {
    var parts := seq(|items|, i requires 0 <= i < |items| => ElementString(items[i]));
    assert (forall i :: 0 <= i < |items| ==> items[i].Str?) ==>
             parts == seq(|items|, i requires 0 <= i < |items| => items[i].s);
    Join(parts, sep)
  }

  /** The characters `String.prototype.trim` strips: WhiteSpace and
      LineTerminator of the ECMAScript grammar. */
  predicate IsJsWhitespace(c: char) {
    var n := c as int;
    || 0x09 <= n <= 0x0D
    || n == 0x20 || n == 0xA0 || n == 0x1680
    || 0x2000 <= n <= 0x200A
    || n == 0x2028 || n == 0x2029 || n == 0x202F || n == 0x205F
    || n == 0x3000 || n == 0xFEFF
  }

  predicate AllWhitespace(s: string) {
    forall i :: 0 <= i < |s| ==> IsJsWhitespace(s[i])
  }

  function TrimStart(s: string): (r: string)
    ensures |r| <= |s| && r == s[|s| - |r|..]
    ensures |r| > 0 ==> !IsJsWhitespace(r[0])
    ensures AllWhitespace(s[..|s| - |r|])
  {
    if |s| == 0 then s
    else if IsJsWhitespace(s[0]) then TrimStart(s[1..])
    else s
  }

  function TrimEnd(s: string): (r: string)
    ensures |r| <= |s| && r == s[..|r|]
    ensures |r| > 0 ==> !IsJsWhitespace(r[|r| - 1])
    ensures AllWhitespace(s[|r|..])
  {
    if |s| == 0 then s
    else if IsJsWhitespace(s[|s| - 1]) then TrimEnd(s[..|s| - 1])
    else s
  }

  /** `s.trim()`. */
  function Trim(s: string): (r: string)
  {
    TrimEnd(TrimStart(s))
  }

  /** `s.trim()` is empty exactly when every character of `s` is whitespace. */
  lemma TrimEmptyIffAllWhitespace(s: string)
    ensures Trim(s) == "" <==> AllWhitespace(s)
  {
  }
}

=== FILE: landing_page.dfy ===
/**
 The landing page's two input handlers as pure state transitions: the
 Konami-code key listener, which keeps a sliding window of the most recent
 keys and fires confetti when the window spells the code, and the scroll
 listener that shows the navigation bar once the page is scrolled past 300.
 */
module LandingPage {

  /** The key sequence that fires the confetti. */
  const Konami: seq<string> :=
    ["ArrowUp", "ArrowUp", "ArrowDown", "ArrowDown", "ArrowLeft", "ArrowRight", "ArrowLeft", "ArrowRight", "b", "a"]

  /** How many keys the listener remembers: `slice(-10)`. */
  const WindowSize: nat := 10

  /** `keys.push(key); keys = keys.slice(-10)`. */
  function PushKey(keys: seq<string>, key: string): (r: seq<string>)
    ensures |r| == if |keys| + 1 <= WindowSize then |keys| + 1 else WindowSize
    ensures |r| > 0 && r[|r| - 1] == key
    ensures |r| <= |keys| + 1 && r == (keys + [key])[|keys| + 1 - |r|..]
    ensures |keys| < WindowSize ==> r == keys + [key]
  {
    var pushed := keys + [key];
    if |pushed| <= WindowSize then pushed else pushed[|pushed| - WindowSize..]
  }

  /** What one `keydown` leaves behind: the new window, and whether confetti
      fired. */
  datatype KeyDown = KeyDown(keys: seq<string>, confetti: bool)

  /** `handleKeyDown`: the comparison of the two JSON texts is the comparison
      of the two key lists. */
  function HandleKeyDown(keys: seq<string>, key: string): (r: KeyDown)
    ensures r.keys == PushKey(keys, key)
    ensures r.confetti <==> r.keys == Konami
  {
    var window := PushKey(keys, key);
    KeyDown(window, window == Konami)
  }

  /** The window after a whole key history, starting from the empty list the
      effect creates. */
  function Replay(history: seq<string>): seq<string> {
    if |history| == 0 then []
    else PushKey(Replay(history[..|history| - 1]), history[|history| - 1])
  }

  /** The last `n` elements of a history, or all of it when it is shorter. */
  function LastN(history: seq<string>, n: nat): (r: seq<string>)
    ensures |r| == if |history| < n then |history| else n
  {
    if |history| <= n then history else history[|history| - n..]
  }

  /** After any key history, the window holds the most recent ten keys (all of
      them if fewer were pressed), in the order they arrived. */
  lemma {:induction false} WindowIsLastTen(history: seq<string>)
    ensures Replay(history) == LastN(history, WindowSize)
  {
    if |history| > 0 {
      var prefix, key := history[..|history| - 1], history[|history| - 1];
      WindowIsLastTen(prefix);
      assert history == prefix + [key];
    }
  }

  /** Confetti fires on a key exactly when the whole history, that key
      included, ends with the ten-key code. */
  lemma FiresIffHistoryEndsWithKonami(history: seq<string>, key: string)
    ensures var h := history + [key];
            HandleKeyDown(Replay(history), key).confetti <==>
              |h| >= WindowSize && h[|h| - WindowSize..] == Konami
  {
    WindowIsLastTen(history + [key]);
    assert (history + [key])[..|history|] == history;
  }

  /** With fewer than ten keys pressed, confetti never fires. */
  lemma NeverFiresBeforeTenKeys(history: seq<string>, key: string)
    requires |history| + 1 < WindowSize
    ensures !HandleKeyDown(Replay(history), key).confetti
  {
    FiresIffHistoryEndsWithKonami(history, key);
  }

  /** Typing the code fires confetti on its last key, whatever was typed
      before it. */
  lemma FiresAfterKonami(earlier: seq<string>)
    ensures HandleKeyDown(Replay(earlier + Konami[..9]), Konami[9]).confetti
  {
    var h := earlier + Konami[..9];
    var full := h + [Konami[9]];
    assert full == earlier + Konami by {
      assert Konami[..9] + [Konami[9]] == Konami;
    }
    assert full[..|full| - 1] == h;
    assert Replay(full) == PushKey(Replay(h), Konami[9]);
    WindowIsLastTen(full);
    assert full[|full| - WindowSize..] == Konami;
  }

  // ---------------------------------------------------------------------------
  // Navigation bar

  /** The scroll position past which the navigation bar shows. */
  const ShowAfter: real := 300.0

  /** The bar's visibility after one scroll event, and how many times the
      handler called the state setter. */
  datatype NavbarUpdate = NavbarUpdate(visible: bool, setterCalls: nat)

  /** The scroll handler: two independent tests on the visibility the handler
      saw, one that shows the bar and one that hides it. */
  function OnScroll(visible: bool, position: real): (r: NavbarUpdate)
    ensures r.visible <==> position > ShowAfter
    ensures r.setterCalls == if r.visible == visible then 0 else 1
  {
    var show := position > ShowAfter && !visible;
    var conceal := position <= ShowAfter && visible;
    var now := if show then true else if conceal then false else visible;
    var calls := (if show then 1 else 0) + (if conceal then 1 else 0);
    NavbarUpdate(now, calls)
  }

  /** A second scroll event on the same side of the threshold changes nothing
      and does not call the setter. */
  lemma ScrollIsIdempotent(visible: bool, first: real, second: real)
    requires (first > ShowAfter) == (second > ShowAfter)
    ensures var after := OnScroll(visible, first).visible;
            OnScroll(after, second) == NavbarUpdate(after, 0)
  {
  }
}

=== FILE: query_builder_page.dfy ===
/**
 The query-builder page of the admin front end, as pure state transitions:
 editing the filter list, ticking columns, loading a table's schema, and
 building the request the page posts to the query route.

 React state updates become functions from the old state to the new one; the
 HTTP calls, toasts and the loading flag are left out.
 */
module QueryBuilderPage {
  import opened JsValues
  import QueryRoute
  import Sequences

  /** One filter row as the page edits it: every field is a string. */
  datatype FilterRow = FilterRow(column: string, operator: string, value: string)

  /** The three fields a row's controls can change. */
  datatype Field = ColumnField | OperatorField | ValueField

  /** The limit input holds `parseInt` of the field's text, which may be `NaN`. */
  datatype LimitInput = Parsed(n: int) | NotANumber

  datatype OrderBy = OrderBy(column: string, ascending: bool)

  datatype PageState = PageState(
    selectedTable: string,
    columns: seq<QueryRoute.ColumnInfo>,
    selectedColumns: seq<string>,
    filters: seq<FilterRow>,
    orderBy: OrderBy,
    limit: LimitInput)

  /** The operators the page offers, in menu order. */
  const Operators: seq<string> := ["eq", "neq", "gt", "gte", "lt", "lte", "like", "ilike", "in", "is"]

  /** The row `addFilter` appends. */
  const BlankFilter := FilterRow("", "eq", "")

  /** The page's state when it mounts: no table, no columns, no filters, no
      ordering column, a limit of 100. */
  const Initial := PageState("", [], [], [], OrderBy("", true), Parsed(100))

  /** The menu offers exactly the ten operators the query route dispatches on. */
  lemma OfferedOperatorsAreDispatched()
    ensures forall k :: 0 <= k < |Operators| ==> QueryRoute.ParseOp(Str(Operators[k])).Some?
    ensures forall op: QueryRoute.Op :: QueryRoute.OpName(op) in Operators
  {
  }

  // ---------------------------------------------------------------------------
  // Filter-list edits

  /** `addFilter`: one blank row at the end, the others untouched. */
  function AddFilter(filters: seq<FilterRow>): (r: seq<FilterRow>)
    ensures |r| == |filters| + 1
    ensures r[..|filters|] == filters && r[|filters|] == BlankFilter
  {
    filters + [BlankFilter]
  }

  /** `removeFilter(index)`, which keeps every row whose position differs from
      `index`; an index outside the list removes nothing. */
  function RemoveFilter(filters: seq<FilterRow>, index: int): (r: seq<FilterRow>)
    ensures 0 <= index < |filters| ==> r == filters[..index] + filters[index + 1..]
    ensures !(0 <= index < |filters|) ==> r == filters
  {
    if |filters| == 0 then []
    else (if index == 0 then [] else [filters[0]]) + RemoveFilter(filters[1..], index - 1)
  }

  /** Removing the row `addFilter` just appended gives the list back. */
  lemma RemoveUndoesAdd(filters: seq<FilterRow>)
    ensures RemoveFilter(AddFilter(filters), |filters|) == filters
  {
  }

  /** One field of a row. */
  function FieldOf(row: FilterRow, field: Field): string {
    match field
    case ColumnField => row.column
    case OperatorField => row.operator
    case ValueField => row.value
  }

  /** The row with one field replaced, as `row[field] = value` leaves it. */
  function WithField(row: FilterRow, field: Field, value: string): (r: FilterRow)
    ensures FieldOf(r, field) == value
    ensures forall g :: g != field ==> FieldOf(r, g) == FieldOf(row, g)
  {
    match field
    case ColumnField => row.(column := value)
    case OperatorField => row.(operator := value)
    case ValueField => row.(value := value)
  }

  /** `updateFilter(index, field, value)`. With an index outside the list,
      `newFilters[index]` is undefined and the assignment throws before the
      state is set, so the list stays as it was. */
  function UpdateFilter(filters: seq<FilterRow>, index: int, field: Field, value: string): (r: seq<FilterRow>)
    ensures |r| == |filters|
    ensures forall j :: 0 <= j < |filters| && j != index ==> r[j] == filters[j]
    ensures 0 <= index < |filters| ==>
              && FieldOf(r[index], field) == value
              && forall g :: g != field ==> FieldOf(r[index], g) == FieldOf(filters[index], g)
    ensures !(0 <= index < |filters|) ==> r == filters
  {
    if 0 <= index < |filters| then filters[index := WithField(filters[index], field, value)] else filters
  }

  /** Writing a field back to the value it already holds changes nothing. */
  lemma UpdateWithSameValueIsIdentity(filters: seq<FilterRow>, index: int, field: Field)
    requires 0 <= index < |filters|
    ensures UpdateFilter(filters, index, field, FieldOf(filters[index], field)) == filters
  {
  }

  // ---------------------------------------------------------------------------
  // Column checkboxes

  /** `selectedColumns.filter(c => c !== name)`. */
  function RemoveAll(selected: seq<string>, name: string): (r: seq<string>)
    ensures name !in r
    ensures forall y :: y != name ==> multiset(r)[y] == multiset(selected)[y]
  {
    if |selected| == 0 then []
    else
      assert selected == [selected[0]] + selected[1..];
      (if selected[0] == name then [] else [selected[0]]) + RemoveAll(selected[1..], name)
  }

  /** Unticking works element by element, so the other names keep their order. */
  lemma {:induction false} RemoveAllConcat(a: seq<string>, b: seq<string>, name: string)
    ensures RemoveAll(a + b, name) == RemoveAll(a, name) + RemoveAll(b, name)
  {
    if |a| == 0 {
      assert a + b == b;
    } else {
      var head := if a[0] == name then [] else [a[0]];
      Sequences.TailOfConcat(a, b);
      RemoveAllConcat(a[1..], b, name);
      assert RemoveAll(a + b, name) == head + RemoveAll(a[1..] + b, name);
      assert RemoveAll(a, name) == head + RemoveAll(a[1..], name);
      Sequences.AppendAssociative(head, RemoveAll(a[1..], name), RemoveAll(b, name));
    }
  }

  /** The checkbox's `onChange`: ticking appends the name, unticking removes
      every occurrence of it. */
  function ToggleColumn(selected: seq<string>, name: string, checked: bool): (r: seq<string>)
    ensures checked ==> r == selected + [name]
    ensures !checked ==> name !in r && forall y :: y != name ==> multiset(r)[y] == multiset(selected)[y]
  {
    if checked then selected + [name] else RemoveAll(selected, name)
  }

  /** Unticking a column that was just ticked restores the selection, as long
      as the column was not ticked before. */
  lemma UntickUndoesTick(selected: seq<string>, name: string)
    requires name !in selected
    ensures ToggleColumn(ToggleColumn(selected, name, true), name, false) == selected
  {
    RemoveAllConcat(selected, [name], name);
    RemoveAllAbsent(selected, name);
    assert RemoveAll([name], name) == [] by {
      assert [name][1..] == [];
    }
  }

  lemma {:induction false} RemoveAllAbsent(selected: seq<string>, name: string)
    requires name !in selected
    ensures RemoveAll(selected, name) == selected
  {
    if |selected| > 0 {
      RemoveAllAbsent(selected[1..], name);
    }
  }

  // ---------------------------------------------------------------------------
  // Loading a schema

  /** `loadSchema`: on an answer, the columns are replaced and the ticked
      columns and filters are cleared; on a failed request nothing changes. */
  function LoadSchema(s: PageState, answer: Option<seq<QueryRoute.ColumnInfo>>): (r: PageState)
    ensures answer.Some? ==> r.columns == answer.value && r.selectedColumns == [] && r.filters == []
    ensures answer.None? ==> r == s
    ensures r.selectedTable == s.selectedTable && r.orderBy == s.orderBy && r.limit == s.limit
  {
    match answer
    case Some(columns) => s.(columns := columns, selectedColumns := [], filters := [])
    case None => s
  }

  // ---------------------------------------------------------------------------
  // Building the request

  /** A row is sent only when its column and its value are both non-empty. */
  predicate Sendable(f: FilterRow) {
    f.column != "" && f.value != ""
  }

  /** `filters.filter(f => f.column && f.value)`. */
  function SendableFilters(filters: seq<FilterRow>): (r: seq<FilterRow>)
    ensures forall k :: 0 <= k < |r| ==> Sendable(r[k])
    ensures forall f :: multiset(r)[f] == if Sendable(f) then multiset(filters)[f] else 0
  {
    if |filters| == 0 then []
    else
      assert filters == [filters[0]] + filters[1..];
      (if Sendable(filters[0]) then [filters[0]] else []) + SendableFilters(filters[1..])
  }

  /** Rows are kept or dropped one by one, so the kept rows keep their order. */
  lemma {:induction false} SendableFiltersConcat(a: seq<FilterRow>, b: seq<FilterRow>)
    ensures SendableFilters(a + b) == SendableFilters(a) + SendableFilters(b)
  {
    if |a| == 0 {
      assert a + b == b;
    } else {
      var head := if Sendable(a[0]) then [a[0]] else [];
      Sequences.TailOfConcat(a, b);
      SendableFiltersConcat(a[1..], b);
      assert SendableFilters(a + b) == head + SendableFilters(a[1..] + b);
      assert SendableFilters(a) == head + SendableFilters(a[1..]);
      Sequences.AppendAssociative(head, SendableFilters(a[1..]), SendableFilters(b));
    }
  }

  /** The request object `executeQuery` posts. */
  datatype QueryConfig = QueryConfig(
    table: string,
    select: Option<seq<string>>,
    filters: seq<FilterRow>,
    orderBy: Option<OrderBy>,
    limit: LimitInput)

  /** `executeQuery`: no request without a table; otherwise the ticked columns
      (only if any), the sendable filters, the ordering (only if it names a
      column) and the limit. */
  function BuildRequest(s: PageState): (r: Option<QueryConfig>)
    ensures s.selectedTable == "" <==> r.None?
    ensures r.Some? ==>
              && r.value.table == s.selectedTable
              && (r.value.select.Some? <==> |s.selectedColumns| > 0)
              && (r.value.select.Some? ==> r.value.select.value == s.selectedColumns)
              && (r.value.orderBy.Some? <==> s.orderBy.column != "")
              && (r.value.orderBy.Some? ==> r.value.orderBy.value == s.orderBy)
              && r.value.limit == s.limit
              && r.value.filters == SendableFilters(s.filters)
  {
    if s.selectedTable == "" then None
    else Some(QueryConfig(
      s.selectedTable,
      if |s.selectedColumns| > 0 then Some(s.selectedColumns) else None,
      SendableFilters(s.filters),
      if s.orderBy.column != "" then Some(s.orderBy) else None,
      s.limit))
  }

  /** A filter row as the JSON object the route receives. */
  function FilterObject(f: FilterRow): (v: Value)
    ensures Prop(v, "column") == Str(f.column)
    ensures Prop(v, "operator") == Str(f.operator)
    ensures Prop(v, "value") == Str(f.value)
    ensures !Nullish(v)
  {
    var props := [("column", Str(f.column)), ("operator", Str(f.operator)), ("value", Str(f.value))];
    assert props[1..] == [("operator", Str(f.operator)), ("value", Str(f.value))];
    assert props[1..][1..] == [("value", Str(f.value))];
    assert Lookup(props, "operator") == Lookup(props[1..], "operator") == Str(f.operator);
    assert Lookup(props, "value") == Lookup(props[1..], "value") == Lookup(props[1..][1..], "value") == Str(f.value);
    Obj(props)
  }

  /** The request as the route decodes it after `JSON.stringify`: absent
      (`undefined`) fields are dropped and read back as `undefined`, and `NaN`
      is written as `null`. */
  function ToBody(c: QueryConfig): (b: QueryRoute.RequestBody)
    ensures b.table == Str(c.table)
    ensures c.select.None? ==> b.select == Undefined
    ensures c.select.Some? ==>
              && b.select.Arr? && |b.select.items| == |c.select.value|
              && forall k :: 0 <= k < |c.select.value| ==> b.select.items[k] == Str(c.select.value[k])
    ensures c.orderBy.None? ==> b.orderBy == Undefined
    ensures c.orderBy.Some? ==>
              b.orderBy == Obj([("column", Str(c.orderBy.value.column)), ("ascending", Bool(c.orderBy.value.ascending))])
    ensures c.limit.Parsed? ==> b.limit == Num(c.limit.n)
    ensures c.limit.NotANumber? ==> b.limit == Null
    ensures b.filters.Arr? && |b.filters.items| == |c.filters|
    ensures forall k :: 0 <= k < |c.filters| ==> b.filters.items[k] == FilterObject(c.filters[k])
  {
    QueryRoute.RequestBody(
      Str(c.table),
      match c.select
        case Some(names) => QueryRoute.Names(names)
        case None => Undefined,
      Arr(seq(|c.filters|, k requires 0 <= k < |c.filters| => FilterObject(c.filters[k]))),
      match c.orderBy
        case Some(o) => Obj([("column", Str(o.column)), ("ascending", Bool(o.ascending))])
        case None => Undefined,
      match c.limit
        case Parsed(n) => Num(n)
        case NotANumber => Null)
  }

  /** The body the route receives when the page has a table selected. */
  function PageBody(s: PageState): QueryRoute.RequestBody
    requires s.selectedTable != ""
  {
    ToBody(BuildRequest(s).value)
  }

  /** A request the page builds is never refused by the route, and it selects
      the ticked columns joined by `", "`, or `*` when none is ticked. */
  lemma PageRequestIsBuilt(s: PageState)
    requires s.selectedTable != ""
    ensures QueryRoute.Translate(PageBody(s)).Built?
    ensures QueryRoute.Translate(PageBody(s)).query.table == Str(s.selectedTable)
    ensures QueryRoute.Translate(PageBody(s)).query.calls[0] ==
              QueryRoute.Select(if |s.selectedColumns| > 0 then Join(s.selectedColumns, ", ") else "*")
  {
    var body := PageBody(s);
    var items := body.filters.items;
    forall k | 0 <= k < |items|
      ensures !QueryRoute.FilterThrows(items[k])
    {
      assert Convertible(Prop(items[k], "value"));
    }
    QueryRoute.SelectProjection(s.selectedColumns, Undefined);
  }

  /** The filter rows as the JSON array the route receives. */
  function FilterObjects(rows: seq<FilterRow>): (v: seq<Value>)
    ensures |v| == |rows|
    ensures forall k :: 0 <= k < |rows| ==> v[k] == FilterObject(rows[k])
  {
    seq(|rows|, k requires 0 <= k < |rows| => FilterObject(rows[k]))
  }

  /** Rows whose operators come from the menu issue one filter call each, in
      order, on the named primitive, with the row's column and (wrapped)
      value. */
  lemma RowsToCalls(rows: seq<FilterRow>)
    requires MenuOperators(rows)
    ensures QueryRoute.FilterCalls(FilterObjects(rows)).Some?
    ensures var fs := QueryRoute.FilterCalls(FilterObjects(rows)).value;
            && |fs| == |rows|
            && forall k :: 0 <= k < |rows| ==>
                 && fs[k].Filter?
                 && QueryRoute.OpName(fs[k].op) == rows[k].operator
                 && fs[k].column == Str(rows[k].column)
                 && fs[k].arg == QueryRoute.FilterArg(fs[k].op, Str(rows[k].value))
  {
    var items := FilterObjects(rows);
    OfferedOperatorsAreDispatched();
    forall k | 0 <= k < |items|
      ensures !Nullish(items[k]) && QueryRoute.ParseOp(Prop(items[k], "operator")).Some?
    {
      var m :| 0 <= m < |Operators| && Operators[m] == rows[k].operator;
    }
    QueryRoute.OneCallPerFilter(items);
  }

  /** The rows that pass the sendable test keep the menu invariant. */
  lemma SendableKeepsMenuOperators(filters: seq<FilterRow>)
    requires MenuOperators(filters)
    ensures MenuOperators(SendableFilters(filters))
  {
  }

  /** One filter call per sendable row, in row order, on the primitive the row
      names, with the column passed through and the value passed through or
      wrapped in `%` for `like`/`ilike` (every row's operator comes from the
      menu). */
  lemma PageRequestFilters(s: PageState)
    requires s.selectedTable != ""
    requires MenuOperators(s.filters)
    ensures QueryRoute.Translate(PageBody(s)).Built?
    ensures var fs := QueryRoute.FiltersOf(QueryRoute.Translate(PageBody(s)).query.calls);
            var sent := SendableFilters(s.filters);
            && |fs| == |sent|
            && forall k :: 0 <= k < |sent| ==>
                 && fs[k].Filter?
                 && QueryRoute.OpName(fs[k].op) == sent[k].operator
                 && fs[k].column == Str(sent[k].column)
                 && fs[k].arg == QueryRoute.FilterArg(fs[k].op, Str(sent[k].value))
  {
    PageRequestIsBuilt(s);
    var body := PageBody(s);
    var sent := SendableFilters(s.filters);
    assert body.filters.items == FilterObjects(sent);
    SendableKeepsMenuOperators(s.filters);
    RowsToCalls(sent);
    QueryRoute.SentFiltersAreFilterStage(body);
  }

  /** Without an ordering column the route issues no `order` call. */
  lemma PageRequestOrder(s: PageState)
    requires s.selectedTable != ""
    ensures QueryRoute.Translate(PageBody(s)).Built?
    ensures var calls := QueryRoute.Translate(PageBody(s)).query.calls;
            s.orderBy.column == "" <==> forall j :: 0 <= j < |calls| ==> !calls[j].Order?
  {
    PageRequestIsBuilt(s);
    var body := PageBody(s);
    assert Truthy(body.orderBy) <==> s.orderBy.column != "" by {
      assert BuildRequest(s).value.orderBy.Some? <==> s.orderBy.column != "";
    }
    var calls := QueryRoute.Translate(body).query.calls;
    QueryRoute.OrderOnlyWhenTruthy(body);
    assert (exists j :: 0 <= j < |calls| && calls[j].Order?) <==> s.orderBy.column != "";
  }

  /** The route limits the rows exactly when the page's limit is a non-zero
      number; `NaN` (sent as `null`) and 0 mean no limit. */
  lemma PageRequestLimit(s: PageState)
    requires s.selectedTable != ""
    ensures QueryRoute.Translate(PageBody(s)).Built?
    ensures var calls := QueryRoute.Translate(PageBody(s)).query.calls;
            (exists j :: 0 <= j < |calls| && calls[j].Limit?) <==> s.limit.Parsed? && s.limit.n != 0
  {
    PageRequestIsBuilt(s);
    var body := PageBody(s);
    assert Truthy(body.limit) <==> s.limit.Parsed? && s.limit.n != 0 by {
      assert BuildRequest(s).value.limit == s.limit;
    }
    QueryRoute.LimitOnlyWhenTruthy(body);
  }

  // ---------------------------------------------------------------------------
  // The page as a whole

  /** Everything the user (or an effect) can do to the page's state. */
  datatype Action =
    | ChooseTable(table: string)
    | SchemaLoaded(answer: Option<seq<QueryRoute.ColumnInfo>>)
    | AddRow
    | RemoveRow(index: int)
    | EditRow(index: int, field: Field, value: string)
    | TickColumn(name: string, checked: bool)
    | SetLimit(limit: LimitInput)

  function Apply(s: PageState, a: Action): (r: PageState)
    ensures r.orderBy == s.orderBy
  {
    match a
    case ChooseTable(table) => s.(selectedTable := table)
    case SchemaLoaded(answer) => LoadSchema(s, answer)
    case AddRow => s.(filters := AddFilter(s.filters))
    case RemoveRow(index) => s.(filters := RemoveFilter(s.filters, index))
    case EditRow(index, field, value) => s.(filters := UpdateFilter(s.filters, index, field, value))
    case TickColumn(name, checked) => s.(selectedColumns := ToggleColumn(s.selectedColumns, name, checked))
    case SetLimit(limit) => s.(limit := limit)
  }

  function Run(s: PageState, actions: seq<Action>): PageState
    decreases |actions|
  {
    if |actions| == 0 then s else Run(Apply(s, actions[0]), actions[1..])
  }

  /** No action sets the ordering, so from the initial state the ordering
      column stays empty and no request ever carries `orderBy`. */
  lemma {:induction false} OrderingNeverSent(actions: seq<Action>)
    ensures Run(Initial, actions).orderBy == OrderBy("", true)
    ensures var s := Run(Initial, actions);
            s.selectedTable != "" ==> BuildRequest(s).value.orderBy.None?
  {
    OrderingUnchanged(Initial, actions);
  }

  lemma {:induction false} OrderingUnchanged(s: PageState, actions: seq<Action>)
    ensures Run(s, actions).orderBy == s.orderBy
    decreases |actions|
  {
    if |actions| > 0 {
      OrderingUnchanged(Apply(s, actions[0]), actions[1..]);
    }
  }

  /** Every row's operator is one the menu offers. */
  predicate MenuOperators(filters: seq<FilterRow>) {
    forall k :: 0 <= k < |filters| ==> filters[k].operator in Operators
  }

  /** An action as the page's controls can produce it: the operator select
      only offers the menu's entries. */
  predicate FromControls(a: Action) {
    a.EditRow? && a.field == OperatorField ==> a.value in Operators
  }

  lemma ApplyKeepsMenuOperators(s: PageState, a: Action)
    requires MenuOperators(s.filters) && FromControls(a)
    ensures MenuOperators(Apply(s, a).filters)
  {
  }

  /** Driven only through its controls, the page never holds a row whose
      operator is outside the menu, so every request it builds has its
      filters dispatched one call per row (see `PageRequestFilters`). */
  lemma {:induction false} OperatorsStayOffered(s: PageState, actions: seq<Action>)
    requires MenuOperators(s.filters)
    requires forall i :: 0 <= i < |actions| ==> FromControls(actions[i])
    ensures MenuOperators(Run(s, actions).filters)
    decreases |actions|
  {
    if |actions| > 0 {
      ApplyKeepsMenuOperators(s, actions[0]);
      OperatorsStayOffered(Apply(s, actions[0]), actions[1..]);
    }
  }
}

=== FILE: query_route.dfy ===
/**
 The admin query routes of the back end.

 `POST /execute` turns a request body `{table, select, filters, orderBy, limit}`
 into a chain of query-builder calls, sends that chain to the store once, and
 shapes the store's answer into a response. `GET /schema/:table` reads the first
 row of a table and infers one column per property of that row.

 The store is uninterpreted: what it receives is modelled as the table name and
 the trace of builder calls, and what it answers is a parameter of the route.
 Builder calls are lazy, so a TypeError raised while the chain is being built
 means that nothing reaches the store and the route's `catch` answers instead.
 */
module QueryRoute {
  import opened JsValues
  import Sequences

  /** The ten filter primitives the route dispatches to. */
  datatype Op = Eq | Neq | Gt | Gte | Lt | Lte | Like | Ilike | In | Is

  /** The operator string a request uses for each primitive. */
  function OpName(op: Op): string {
    match op
    case Eq => "eq"
    case Neq => "neq"
    case Gt => "gt"
    case Gte => "gte"
    case Lt => "lt"
    case Lte => "lte"
    case Like => "like"
    case Ilike => "ilike"
    case In => "in"
    case Is => "is"
  }

  /** The `switch (operator)` of the route: strict equality against the ten
      operator strings; anything else selects no primitive. */
  function ParseOp(operator: Value): (r: Option<Op>)
    ensures r.Some? ==> operator == Str(OpName(r.value))
    ensures forall op :: operator == Str(OpName(op)) ==> r == Some(op)
  {
    if !operator.Str? then None
    else
      var s := operator.s;
      if s == "eq" then Some(Eq)
      else if s == "neq" then Some(Neq)
      else if s == "gt" then Some(Gt)
      else if s == "gte" then Some(Gte)
      else if s == "lt" then Some(Lt)
      else if s == "lte" then Some(Lte)
      else if s == "like" then Some(Like)
      else if s == "ilike" then Some(Ilike)
      else if s == "in" then Some(In)
      else if s == "is" then Some(Is)
      else None
  }

  /** One call on the query builder. */
  datatype Call =
    | Select(columns: string)
    | Filter(op: Op, column: Value, arg: Value)
    | Order(column: Value, ascending: Value)
    | Limit(count: Value)

  /** What reaches the store: `from(table)` followed by the chained calls. */
  datatype Query = Query(table: Value, calls: seq<Call>)

  /** The five fields the route destructures from the request body; an absent
      field is `undefined`. */
  datatype RequestBody = RequestBody(table: Value, select: Value, filters: Value, orderBy: Value, limit: Value)

  /** The store's answer to one query: its rows, or an error with a message. */
  datatype Outcome = Rows(data: seq<Value>) | StoreError(message: string)

  /** One column as the schema route reports it. */
  datatype ColumnInfo = ColumnInfo(name: string, typeName: string)

  /** The JSON body of a response. */
  datatype Reply =
    | Failure(error: string, details: Option<string>)
    | Success(data: seq<Value>, count: nat)
    | Columns(columns: seq<ColumnInfo>)

  datatype Response = Response(status: nat, reply: Reply)

  /** The route's result before the store is consulted: either a query ready to
      send, or a response given without sending anything. */
  datatype Translation = Built(query: Query) | Early(response: Response)

  /** One request as the outside sees it: the query sent to the store, if any,
      and the response. */
  datatype Exchange = Exchange(sent: Option<Query>, response: Response)

  const TableRequired := Response(400, Failure("Table name required", None))
  const InternalError := Response(500, Failure("Internal server error", None))

  /** The column stage: `select.join(', ')` for a non-empty array, `'*'` for
      anything falsy or without a positive length. It throws (`None`) for a
      non-empty string, which has a length but no `join`, and for an array
      holding an element `join` cannot convert. */
  predicate SelectThrows(select: Value) {
    || (select.Str? && select.s != "")
    || (select.Arr? && |select.items| > 0 && !Convertible(select))
  }

  function SelectStage(select: Value): (r: Option<Call>)
    ensures r.None? <==> SelectThrows(select)
    ensures r.Some? ==> r.value.Select?
  {
    match select
    case Arr(items) =>
      if |items| == 0 then Some(Select("*"))
      else if Convertible(select) then Some(Select(JoinValues(items, ", ")))
      else None
    case Str(s) => if s != "" then None else Some(Select("*"))
    case _ => Some(Select("*"))
  }

  /** A primitive whose argument is built with a template literal. */
  predicate Wraps(op: Op) {
    op == Like || op == Ilike
  }

  /** The argument handed to the primitive: `like` and `ilike` receive
      `%${value}%`, every other primitive the value itself. */
  function FilterArg(op: Op, value: Value): Value {
    if Wraps(op) then Str("%" + JsString(value) + "%") else value
  }

  /** One iteration of `filters.forEach` throws: destructuring a `null` or
      `undefined` filter, or building `%${value}%` from a value `String`
      cannot convert. */
  predicate FilterThrows(filter: Value) {
    || Nullish(filter)
    || (var op := ParseOp(Prop(filter, "operator"));
        op.Some? && Wraps(op.value) && !Convertible(Prop(filter, "value")))
  }

  /** One iteration of `filters.forEach`: a throwing filter gives `None`; an
      unknown operator issues nothing; a known one issues exactly one call. */
  function FilterStep(filter: Value): (r: Option<seq<Call>>)
    ensures r.None? <==> FilterThrows(filter)
    ensures r.Some? ==> (|r.value| == 1 <==> ParseOp(Prop(filter, "operator")).Some?)
    ensures r.Some? ==> |r.value| <= 1
  {
    if Nullish(filter) then None
    else match ParseOp(Prop(filter, "operator"))
      case None => Some([])
      case Some(op) =>
        if Wraps(op) && !Convertible(Prop(filter, "value")) then None
        else Some([Filter(op, Prop(filter, "column"), FilterArg(op, Prop(filter, "value")))])
  }

  /** Some filter of the list throws. */
  predicate HasThrowing(filters: seq<Value>) {
    exists i :: 0 <= i < |filters| && FilterThrows(filters[i])
  }

  /** Every call of the list is a filter call. */
  predicate AllFilters(calls: seq<Call>) {
    forall j :: 0 <= j < |calls| ==> calls[j].Filter?
  }

  /** The whole `forEach` over an array of filters. */
  function FilterCalls(filters: seq<Value>): (r: Option<seq<Call>>)
    ensures r.None? <==> HasThrowing(filters)
  {
    if |filters| == 0 then Some([])
    else
      var first := FilterStep(filters[0]);
      var rest := FilterCalls(filters[1..]);
      if first.Some? && rest.Some? then Some(first.value + rest.value) else None
  }

  lemma AllFiltersConcat(a: seq<Call>, b: seq<Call>)
    requires AllFilters(a) && AllFilters(b)
    ensures AllFilters(a + b)
  {
  }

  /** The `forEach` issues nothing but filter calls. */
  lemma {:induction false} FilterCallsAreFilters(filters: seq<Value>)
    requires FilterCalls(filters).Some?
    ensures AllFilters(FilterCalls(filters).value)
  {
    if |filters| > 0 {
      FilterCallsAreFilters(filters[1..]);
      var first: seq<Call> := FilterStep(filters[0]).value;
      var rest: seq<Call> := FilterCalls(filters[1..]).value;
      assert FilterCalls(filters).value == first + rest;
      assert AllFilters(first);
      AllFiltersConcat(first, rest);
    }
  }

  /** The filter stage: only an array is iterated. */
  function FilterStage(filters: Value): (r: Option<seq<Call>>)
    ensures !filters.Arr? ==> r == Some([])
  {
    if filters.Arr? then FilterCalls(filters.items) else Some([])
  }

  lemma FilterStageAreFilters(filters: Value)
    requires FilterStage(filters).Some?
    ensures AllFilters(FilterStage(filters).value)
  {
    if filters.Arr? {
      FilterCallsAreFilters(filters.items);
    }
  }

  /** The ordering stage: `order(column, {ascending})` whenever `orderBy` is
      truthy, with `ascending` defaulting to `true` only when it is `undefined`. */
  function OrderStage(orderBy: Value): seq<Call> {
    if Truthy(orderBy) then
      var ascending := Prop(orderBy, "ascending");
      [Order(Prop(orderBy, "column"), if ascending == Undefined then Bool(true) else ascending)]
    else []
  }

  /** The limit stage: `limit(n)` whenever `limit` is truthy. */
  function LimitStage(limit: Value): seq<Call> {
    if Truthy(limit) then [Limit(limit)] else []
  }

  /** The position of each kind of call in the fixed chain. */
  function Rank(c: Call): nat {
    match c
    case Select(_) => 0
    case Filter(_, _, _) => 1
    case Order(_, _) => 2
    case Limit(_) => 3
  }

  /** A chain in the route's fixed order: exactly one `select`, first; then the
      filters; then at most one `order`; then at most one `limit`. */
  predicate Staged(calls: seq<Call>) {
    && |calls| >= 1
    && calls[0].Select?
    && (forall i, j :: 0 <= i < j < |calls| ==> Rank(calls[i]) <= Rank(calls[j]))
    && (forall i, j :: 0 <= i < j < |calls| && Rank(calls[i]) == Rank(calls[j]) ==> calls[i].Filter?)
  }

  lemma ChainIsStaged(s: Call, fcs: seq<Call>, ord: seq<Call>, lim: seq<Call>)
    requires s.Select?
    requires AllFilters(fcs)
    requires |ord| <= 1 && forall j :: 0 <= j < |ord| ==> ord[j].Order?
    requires |lim| <= 1 && forall j :: 0 <= j < |lim| ==> lim[j].Limit?
    ensures Staged([s] + fcs + ord + lim)
  {
  }

  /** Everything the route does before the store is consulted. */
  function Translate(body: RequestBody): (r: Translation)
    ensures !Truthy(body.table) ==> r == Early(TableRequired)
    ensures Truthy(body.table) && r.Early? ==> r.response == InternalError
    ensures r.Early? <==>
              || !Truthy(body.table)
              || SelectThrows(body.select)
              || (body.filters.Arr? && HasThrowing(body.filters.items))
    ensures r.Built? ==> r.query.table == body.table && Staged(r.query.calls)
    ensures r.Built? ==> r.query.calls[0] == SelectStage(body.select).value
  {
    if !Truthy(body.table) then Early(TableRequired)
    else match (SelectStage(body.select), FilterStage(body.filters))
      case (Some(s), Some(fcs)) =>
        var calls := [s] + fcs + OrderStage(body.orderBy) + LimitStage(body.limit);
        FilterStageAreFilters(body.filters);
        ChainIsStaged(s, fcs, OrderStage(body.orderBy), LimitStage(body.limit));
        Built(Query(body.table, calls))
      case _ => Early(InternalError)
  }

  /** Shaping the store's answer: rows become `{success, data, count}` with the
      count of the rows returned; an error becomes a 500 carrying its message. */
  function Shape(outcome: Outcome): (r: Response)
    ensures outcome.Rows? ==> r.status == 200 && r.reply.Success? && r.reply.data == outcome.data
                              && r.reply.count == |outcome.data|
    ensures outcome.StoreError? ==> r.status == 500 && r.reply.Failure?
                                    && r.reply.details == Some(outcome.message)
  {
    match outcome
    case Rows(data) => Response(200, Success(data, |data|))
    case StoreError(message) => Response(500, Failure("Query execution failed", Some(message)))
  }

  /** `POST /execute`: the store is consulted exactly when translation succeeds. */
  function Execute(body: RequestBody, store: Query -> Outcome): (r: Exchange)
    ensures !Truthy(body.table) ==> r.sent == None && r.response == TableRequired
    ensures r.sent.Some? <==> Translate(body).Built?
    ensures r.sent.Some? ==> r.sent.value == Translate(body).query
    ensures r.sent.Some? ==> r.sent.value.table == body.table && Staged(r.sent.value.calls)
    ensures r.sent.None? ==> r.response.status in {400, 500} && r.response.reply.Failure?
    ensures Truthy(body.table) && r.sent.None? ==> r.response == InternalError
    ensures r.response.reply.Success? <==> r.sent.Some? && store(r.sent.value).Rows?
    ensures r.response.reply.Success? ==>
              r.response.status == 200
              && r.response.reply.data == store(r.sent.value).data
              && r.response.reply.count == |r.response.reply.data|
    ensures r.sent.Some? && store(r.sent.value).StoreError? ==>
              r.response == Response(500, Failure("Query execution failed", Some(store(r.sent.value).message)))
  {
    match Translate(body)
    case Early(response) => Exchange(None, response)
    case Built(query) => Exchange(Some(query), Shape(store(query)))
  }

  // ---------------------------------------------------------------------------
  // Properties of the translation

  /** The filter calls of a chain, in chain order. */
  function FiltersOf(calls: seq<Call>): seq<Call> {
    if |calls| == 0 then [] else KeepFilter(calls[0]) + FiltersOf(calls[1..])
  }

  function KeepFilter(c: Call): seq<Call> {
    if c.Filter? then [c] else []
  }

  lemma {:induction false} FiltersOfConcat(a: seq<Call>, b: seq<Call>)
    ensures FiltersOf(a + b) == FiltersOf(a) + FiltersOf(b)
  {
    if |a| == 0 {
      assert a + b == b;
    } else {
      var head, tail := KeepFilter(a[0]), a[1..];
      Sequences.TailOfConcat(a, b);
      FiltersOfConcat(tail, b);
      assert FiltersOf(a + b) == head + FiltersOf(tail + b);
      assert FiltersOf(a) == head + FiltersOf(tail);
      Sequences.AppendAssociative(head, FiltersOf(tail), FiltersOf(b));
    }
  }

  lemma {:induction false} FiltersOfOnlyFilters(calls: seq<Call>)
    requires AllFilters(calls)
    ensures FiltersOf(calls) == calls
  {
    if |calls| > 0 {
      FiltersOfOnlyFilters(calls[1..]);
    }
  }

  lemma {:induction false} NoFilters(calls: seq<Call>)
    requires forall j :: 0 <= j < |calls| ==> !calls[j].Filter?
    ensures FiltersOf(calls) == []
  {
    if |calls| > 0 {
      NoFilters(calls[1..]);
    }
  }

  /** The filter calls that reach the store are exactly those of the filter
      stage, in the same order; `select`, `order` and `limit` add none. */
  lemma SentFiltersAreFilterStage(body: RequestBody)
    requires Translate(body).Built?
    ensures FilterStage(body.filters).Some?
    ensures FiltersOf(Translate(body).query.calls) == FilterStage(body.filters).value
  {
    var s := SelectStage(body.select).value;
    var fcs := FilterStage(body.filters).value;
    var ord := OrderStage(body.orderBy);
    var lim := LimitStage(body.limit);
    assert Translate(body).query.calls == [s] + fcs + ord + lim;
    FilterStageAreFilters(body.filters);
    FiltersOfOnlyFilters(fcs);
    NoFilters([s]);
    NoFilters(ord);
    NoFilters(lim);
    FiltersOfConcat([s], fcs);
    var none: seq<Call> := [];
    assert FiltersOf([s] + fcs) == fcs by {
      assert none + fcs == fcs;
    }
    FiltersOfConcat([s] + fcs, ord);
    assert FiltersOf([s] + fcs + ord) == fcs by {
      assert fcs + none == fcs;
    }
    FiltersOfConcat([s] + fcs + ord, lim);
  }

  /** The `forEach` distributes over concatenation: each filter is handled on
      its own, whatever came before it. */
  lemma {:induction false} FilterCallsConcat(a: seq<Value>, b: seq<Value>)
    requires FilterCalls(a).Some? && FilterCalls(b).Some?
    ensures FilterCalls(a + b) == Some(FilterCalls(a).value + FilterCalls(b).value)
  {
    var xb := FilterCalls(b).value;
    if |a| == 0 {
      assert a + b == b;
      assert FilterCalls(a) == Some([]);
      assert [] + xb == xb;
    } else {
      var first := FilterStep(a[0]).value;
      var ra := FilterCalls(a[1..]).value;
      assert FilterCalls(a) == Some(first + ra);
      FilterCallsConcat(a[1..], b);
      Sequences.TailOfConcat(a, b);
      assert FilterCalls(a + b) == Some(first + (ra + xb));
      Sequences.AppendAssociative(first, ra, xb);
    }
  }

  /** A filter whose operator is none of the ten issues no call, and the
      filters after it are still applied: the result is what the list without
      it produces. */
  lemma UnknownOperatorSkipped(filters: seq<Value>, i: nat)
    requires i < |filters|
    requires !Nullish(filters[i]) && ParseOp(Prop(filters[i], "operator")).None?
    ensures FilterCalls(filters) == FilterCalls(filters[..i] + filters[i + 1..])
  {
    var pre, x, post := filters[..i], [filters[i]], filters[i + 1..];
    SplitAt(filters, i);
    assert FilterCalls(x) == Some([]) by {
      assert x[0] == filters[i] && x[1..] == [];
      assert FilterStep(x[0]) == Some([]);
      assert FilterCalls(x[1..]) == Some([]);
      var none: seq<Call> := [];
      assert none + none == none;
    }
    HasThrowingConcat(pre, x);
    HasThrowingConcat(pre + x, post);
    HasThrowingConcat(pre, post);
    assert !HasThrowing(x);
    if !HasThrowing(pre) && !HasThrowing(post) {
      FilterCallsConcat(pre, x);
      FilterCallsConcat(pre + x, post);
      FilterCallsConcat(pre, post);
      assert FilterCalls(pre).value + [] == FilterCalls(pre).value;
    }
  }

  lemma SplitAt<T>(s: seq<T>, i: nat)
    requires i < |s|
    ensures s == s[..i] + [s[i]] + s[i + 1..]
  {
  }

  lemma HasThrowingConcat(a: seq<Value>, b: seq<Value>)
    ensures HasThrowing(a + b) <==> HasThrowing(a) || HasThrowing(b)
  {
    if HasThrowing(a) {
      var k :| 0 <= k < |a| && FilterThrows(a[k]);
      assert (a + b)[k] == a[k];
    }
    if HasThrowing(b) {
      var k :| 0 <= k < |b| && FilterThrows(b[k]);
      assert (a + b)[|a| + k] == b[k];
    }
    if HasThrowing(a + b) {
      var k :| 0 <= k < |a + b| && FilterThrows((a + b)[k]);
      if k < |a| {
        assert (a + b)[k] == a[k];
      } else {
        assert (a + b)[k] == b[k - |a|];
      }
    }
  }

  /** When every filter is an object with one of the ten operators, there is
      one call per filter, in list order, on the same-named primitive, with the
      column passed through and the value passed through or wrapped. */
  lemma {:induction false} OneCallPerFilter(filters: seq<Value>)
    requires forall i :: 0 <= i < |filters| ==> !FilterThrows(filters[i]) && ParseOp(Prop(filters[i], "operator")).Some?
    ensures FilterCalls(filters).Some?
    ensures |FilterCalls(filters).value| == |filters|
    ensures forall i :: 0 <= i < |filters| ==>
              var op := ParseOp(Prop(filters[i], "operator")).value;
              && FilterCalls(filters).value[i] == Filter(op, Prop(filters[i], "column"), FilterArg(op, Prop(filters[i], "value")))
              && Prop(filters[i], "operator") == Str(OpName(op))
  {
    if |filters| > 0 {
      OneCallPerFilter(filters[1..]);
      var rest := FilterCalls(filters[1..]).value;
      assert FilterCalls(filters).value == FilterStep(filters[0]).value + rest;
      forall i | 1 <= i < |filters|
        ensures FilterCalls(filters).value[i] == rest[i - 1]
      {
      }
    }
  }

  /** `like` and `ilike` receive the value wrapped in `%` on both sides;
      the other eight primitives receive the value unchanged, lists included. */
  lemma PatternWrapping(op: Op, value: Value)
    ensures Wraps(op) ==>
              && FilterArg(op, value).Str?
              && var p := FilterArg(op, value).s;
              && |p| == |JsString(value)| + 2
              && p[0] == '%' && p[|p| - 1] == '%'
              && p[1..|p| - 1] == JsString(value)
    ensures value.Str? && Wraps(op) ==> FilterArg(op, value) == Str("%" + value.s + "%")
    ensures !Wraps(op) ==> FilterArg(op, value) == value
  {
  }

  /** Falsy `limit` (0, `null`, absent, `false`, `''`) issues no `limit` call;
      a truthy one issues exactly one carrying the value. */
  lemma LimitOnlyWhenTruthy(body: RequestBody)
    requires Translate(body).Built?
    ensures var calls := Translate(body).query.calls;
            (exists j :: 0 <= j < |calls| && calls[j] == Limit(body.limit)) <==> Truthy(body.limit)
    ensures var calls := Translate(body).query.calls;
            forall j :: 0 <= j < |calls| && calls[j].Limit? ==> calls[j] == Limit(body.limit)
  {
    var s := SelectStage(body.select).value;
    var fcs := FilterStage(body.filters).value;
    var ord := OrderStage(body.orderBy);
    var lim := LimitStage(body.limit);
    var calls := [s] + fcs + ord + lim;
    assert Translate(body).query.calls == calls;
    FilterStageAreFilters(body.filters);
    forall j | 0 <= j < |calls|
      ensures calls[j].Limit? <==> |lim| == 1 && j == |calls| - 1
      ensures calls[j].Limit? ==> calls[j] == lim[0]
    {
      if j == 0 {
      } else if j <= |fcs| {
        assert calls[j] == fcs[j - 1];
      } else if j <= |fcs| + |ord| {
        assert calls[j] == ord[j - 1 - |fcs|];
      } else {
        assert calls[j] == lim[j - 1 - |fcs| - |ord|];
      }
    }
    if Truthy(body.limit) {
      assert calls[|calls| - 1] == Limit(body.limit);
    }
  }

  /** `order` is issued exactly when `orderBy` is truthy, on the given column,
      ascending unless `ascending` is given. */
  lemma OrderOnlyWhenTruthy(body: RequestBody)
    requires Translate(body).Built?
    ensures var calls := Translate(body).query.calls;
            (exists j :: 0 <= j < |calls| && calls[j].Order?) <==> Truthy(body.orderBy)
    ensures var calls := Translate(body).query.calls;
            forall j :: 0 <= j < |calls| && calls[j].Order? ==>
              && calls[j].column == Prop(body.orderBy, "column")
              && (Prop(body.orderBy, "ascending") == Undefined ==> calls[j].ascending == Bool(true))
              && (Prop(body.orderBy, "ascending") != Undefined ==> calls[j].ascending == Prop(body.orderBy, "ascending"))
  {
    var s := SelectStage(body.select).value;
    var fcs := FilterStage(body.filters).value;
    var ord := OrderStage(body.orderBy);
    var lim := LimitStage(body.limit);
    var calls := [s] + fcs + ord + lim;
    assert Translate(body).query.calls == calls;
    FilterStageAreFilters(body.filters);
    forall j | 0 <= j < |calls|
      ensures calls[j].Order? <==> |ord| == 1 && j == 1 + |fcs|
      ensures calls[j].Order? ==> calls[j] == ord[0]
    {
      if j == 0 {
      } else if j <= |fcs| {
        assert calls[j] == fcs[j - 1];
      } else if j <= |fcs| + |ord| {
        assert calls[j] == ord[j - 1 - |fcs|];
      } else {
        assert calls[j] == lim[j - 1 - |fcs| - |ord|];
      }
    }
    if Truthy(body.orderBy) {
      assert calls[1 + |fcs|] == ord[0];
    }
  }

  /** A value carrying its own `toString` key cannot be turned into a string,
      so putting it in `select`, or in a `like` filter's value, sends nothing
      and gives the 500 internal error. */
  lemma UnconvertibleValueIsRefused(table: string, column: Value)
    requires table != ""
    ensures var bad := Obj([("toString", Num(0))]);
            Translate(RequestBody(Str(table), Arr([bad]), Undefined, Undefined, Undefined)) == Early(InternalError)
    ensures var bad := Obj([("toString", Num(0))]);
            var filter := Obj([("column", column), ("operator", Str("like")), ("value", bad)]);
            Translate(RequestBody(Str(table), Undefined, Arr([filter]), Undefined, Undefined)) == Early(InternalError)
  {
    var bad := Obj([("toString", Num(0))]);
    assert HasKey(bad.props, "toString");
    assert !Convertible(Arr([bad])) by {
      assert [bad][0] == bad;
    }
    var props := [("column", column), ("operator", Str("like")), ("value", bad)];
    assert props[1..] == [("operator", Str("like")), ("value", bad)];
    assert props[1..][1..] == [("value", bad)];
    assert Lookup(props, "operator") == Lookup(props[1..], "operator") == Str("like");
    assert Lookup(props, "value") == Lookup(props[1..], "value") == Lookup(props[1..][1..], "value") == bad;
    var filter := Obj(props);
    assert FilterThrows(filter);
    assert HasThrowing([filter]) by {
      assert [filter][0] == filter;
    }
  }

  /** A list of column names as a JSON array of strings. */
  function Names(names: seq<string>): (v: Value)
    ensures v.Arr? && |v.items| == |names|
    ensures forall i :: 0 <= i < |names| ==> v.items[i] == Str(names[i])
  {
    Arr(seq(|names|, i requires 0 <= i < |names| => Str(names[i])))
  }

  /** Joining a list of names sent as strings joins the names themselves. */
  lemma JoinNames(names: seq<string>, sep: string)
    ensures JoinValues(Names(names).items, sep) == Join(names, sep)
  {
    var items := Names(names).items;
    var strings := seq(|items|, i requires 0 <= i < |items| => items[i].s);
    assert strings == names;
  }

  /** A non-empty list of names selects exactly those names joined by `", "`,
      in the given order; an empty or absent list, or anything without a
      length, selects `*`. */
  lemma SelectProjection(names: seq<string>, other: Value)
    ensures |names| > 0 ==> SelectStage(Names(names)) == Some(Select(Join(names, ", ")))
    ensures |names| == 0 ==> SelectStage(Names(names)) == Some(Select("*"))
    ensures !(other.Arr? && |other.items| > 0) && !(other.Str? && other.s != "") ==> SelectStage(other) == Some(Select("*"))
  {
    JoinNames(names, ", ");
    assert Convertible(Names(names));
  }

  // ---------------------------------------------------------------------------
  // GET /schema/:table

  /** The query the schema route sends: every column of at most one row. */
  function SchemaQuery(table: string): Query {
    Query(Str(table), [Select("*"), Limit(Num(1))])
  }

  /** The property names of a row, in enumeration order. */
  function Keys(props: seq<(string, Value)>): (r: seq<string>)
    ensures |r| == |props|
  {
    if |props| == 0 then [] else [props[0].0] + Keys(props[1..])
  }

  /** `Object.keys(row).map(key => ({name: key, type: typeof row[key]}))`.
      `Object.keys(null)` throws (`None`); an array or a string enumerates its
      indices; a number or a boolean has no keys. */
  function InferColumns(row: Value): (r: Option<seq<ColumnInfo>>)
    ensures r.None? <==> Nullish(row)
    ensures row.Obj? ==> r.Some? && |r.value| == |row.props|
    ensures (row.Num? || row.Bool?) ==> r == Some([])
  {
    match row
    case Obj(props) => Some(seq(|props|, i requires 0 <= i < |props| => ColumnInfo(props[i].0, TypeOf(props[i].1))))
    case Arr(items) => Some(seq(|items|, i requires 0 <= i < |items| => ColumnInfo(NatToDecimal(i), TypeOf(items[i]))))
    case Str(s) => Some(seq(|s|, i requires 0 <= i < |s| => ColumnInfo(NatToDecimal(i), "string")))
    case Num(_) => Some([])
    case Bool(_) => Some([])
    case Null => None
    case Undefined => None
  }

  function ColumnNames(columns: seq<ColumnInfo>): (r: seq<string>)
    ensures |r| == |columns|
  {
    if |columns| == 0 then [] else [columns[0].name] + ColumnNames(columns[1..])
  }

  /** For an object row, the inferred column names are its keys in order, and
      each column's type is the `typeof` of that key's value. */
  lemma {:induction false} ColumnsFollowKeys(props: seq<(string, Value)>)
    ensures InferColumns(Obj(props)).Some?
    ensures ColumnNames(InferColumns(Obj(props)).value) == Keys(props)
    ensures forall i :: 0 <= i < |props| ==> InferColumns(Obj(props)).value[i].typeName == TypeOf(props[i].1)
  {
    if |props| > 0 {
      ColumnsFollowKeys(props[1..]);
      var cols := InferColumns(Obj(props)).value;
      assert cols[1..] == InferColumns(Obj(props[1..])).value;
    }
  }

  /** `GET /schema/:table`: the first row's properties become the columns. */
  function Schema(table: string, store: Query -> Outcome): (r: Exchange)
    ensures r.sent == Some(SchemaQuery(table))
    ensures store(SchemaQuery(table)).StoreError? ==> r.response == Response(500, Failure("Failed to fetch schema", None))
    ensures store(SchemaQuery(table)) == Rows([]) ==> r.response == Response(200, Columns([]))
    ensures store(SchemaQuery(table)).Rows? && |store(SchemaQuery(table)).data| > 0 ==>
              var first := store(SchemaQuery(table)).data[0];
              && (Nullish(first) ==> r.response == InternalError)
              && (!Nullish(first) ==> r.response == Response(200, Columns(InferColumns(first).value)))
              && (first.Obj? ==> |r.response.reply.columns| == |first.props|)
  {
    var query := SchemaQuery(table);
    var response :=
      match store(query)
      case StoreError(_) => Response(500, Failure("Failed to fetch schema", None))
      case Rows(data) =>
        if |data| == 0 then Response(200, Columns([]))
        else match InferColumns(data[0])
          case None => InternalError
          case Some(columns) => Response(200, Columns(columns));
    Exchange(Some(query), response)
  }
}

=== FILE: sequences.dfy ===
/**
 Small facts about sequence concatenation, shared by the route and the page.
 */
module Sequences {
  /** Concatenation regroups freely. */
  lemma AppendAssociative<T>(x: seq<T>, y: seq<T>, z: seq<T>)
    ensures x + (y + z) == (x + y) + z
  {
  }

  /** The head and the tail of a concatenation whose left part is non-empty. */
  lemma TailOfConcat<T>(a: seq<T>, b: seq<T>)
    requires |a| > 0
    ensures (a + b)[0] == a[0] && (a + b)[1..] == a[1..] + b
  {
  }
}
